=== FILE: README.md ===
# Contacts backend: a verified model

This project models the core of a small contact-management backend. It has four parts:
- the per-user contacts repository: list with paging, get, create, partial update, remove, search, and upcoming birthdays;
- the token rules of the authentication service: which claims each kind of token carries, and how a decoded token is accepted or refused;
- the record shapes and bounds of the database tables and the request/response schemas;
- the front end's authentication slice, a small state machine mirrored into localStorage.

Module layout, one per component:

- `Wrappers` (`wrappers.dfy`): `Option`, standing for Python `None`, SQL `NULL` and JavaScript `null`.
- `Sequences` (`sequences.dfy`): `Where`, an order-preserving filter that models a SQL `WHERE` over the rows of a table in one fixed storage order. Also its lemmas (concatenation, extensionality, removal, replacement, key uniqueness).
- `Calendar` (`calendar.dfy`): Gregorian dates as Python's `date` holds them, and `AddDays`. `AddDays(d, n)` is proved to be the one calendar date whose ordinal is `n` more than that of `d`. That is the date Python computes for `d + timedelta(days=n)`, leap years included.
- `Text` (`text.dfy`): case-insensitive substring search, the meaning of `ILIKE '%f%'`. It is proved equal to "some position holds the filter, ignoring case".
- `Models` (`models.dfy`): the `contacts` and `users` rows. This covers their column bounds, primary keys, the unique email, the defaults, and the declared SQL `ON DELETE CASCADE` from a user to their contacts.
- `Schemas` (`schemas.dfy`): the pydantic records. Field defaults become constructor parameters with default values. Length bounds become `Valid` predicates.
- `Birthdays` (`birthdays.dfy`): the upcoming-birthday filter, exactly as the query writes it. Beside it is the window it is meant to select, with lemmas saying where the two agree and where they differ.
- `Contacts` (`contacts.dfy`): read operations as functions of the table. The class `ContactTable` holds the table and changes it in place for create, update and remove.
- `Auth` (`auth.dfy`): the claim-building methods and the three decisions on a decoded token.
- `AuthSlice` (`auth_slice.dfy`): the slice state as a class whose reducers assign its fields and the mirrored storage map.

JWT signing is abstract. A token is represented by its claims map. A decision function receives the result of decoding: `None` for any decode error (bad signature, expired token, malformed token), `Some(claims)` otherwise. "Today" and "now" are parameters.

Three points of the code shape the model:
- A decoded token without a `scope` claim (or a token of the right scope without `sub`) raises `KeyError`. The `except JWTError` handlers (src/services/auth.py:115, 141) do not catch it. The model returns `Raised(KeyError(..))`.
- The birthday query chooses its branch by comparing (month, day) pairs, not months alone. `Birthdays.FirstBranchIffSameYear` shows that this comparison holds exactly when today + 7 falls in the same year.
- The queries have no `ORDER BY`, so the database promises no row order. The model fixes one storage order for the table and uses it in every query. Results that depend on order hold only under that assumption (see "## Left out").

## Model

| member | source | states |
|---|---|---|
| `Calendar.AddDaysOrdinal` | src/repository/contacts.py:148 | the date `AddDays(d, n)` has ordinal exactly `n` more than `d`: it is Python's `date + timedelta(days=n)` |
| `Calendar.AddDays` | src/repository/contacts.py:148 | the sum of a calendar date and a number of days is again a calendar date |
| `Calendar.OrdinalInjective` | src/repository/contacts.py:148 | two calendar dates have the same ordinal iff they are the same date |
| `Calendar.AddDaysIsOrdinalDate` | src/repository/contacts.py:148 | `AddDays(d, n)` is a calendar date `e` iff the ordinal of `e` is `n` more than that of `d`: the one date Python's `date + timedelta(days=n)` returns |
| `Calendar.AddDaysIntoNextMonth` | src/repository/contacts.py:148 | adding up to 28 days past the end of a month lands in the next month (next year after December) on the day that remains |
| `Birthdays.QueryMatches` | src/repository/contacts.py:154-183 | the query's filter on a birth date as written: with (today.month, today.day) <= (next.month, next.day), month and day are each tested with BETWEEN on their own; otherwise the three-way OR of the year-end branch |
| `Birthdays.FirstBranchIffSameYear` | src/repository/contacts.py:151-154 | the (month, day) comparison of today and next week holds iff next week is in the same year as today |
| `Birthdays.WithinMonthIsExact` | src/repository/contacts.py:154-162 | when the week stays inside one month, a birth date matches iff it is in that month and its day is in today.day .. today.day + 7: exactly the 8-day window |
| `Birthdays.MonthCrossingMatchesNothing` | src/repository/contacts.py:154-162 | when the week crosses a month boundary inside the year, no birth date matches, because the day range is inverted |
| `Birthdays.InWindowAcrossYearEnd` | src/repository/contacts.py:138-148 | the 8 days from a late-December today are the rest of December and January 1 .. today.day + 7 - 31 |
| `Birthdays.YearEndIsExact` | src/repository/contacts.py:163-183 | in the year-end branch, a real birth date matches iff its month and day fall in the 8-day window |
| `Birthdays.MonthCrossingMissesBirthday` | src/repository/contacts.py:154-162 | for today = 2024-06-28, 30 June is in the window, yet the query does not match it |
| `Birthdays.FirstOfJuneWindow` | src/repository/contacts.py:154-162 | from 2024-06-01, next week is 2024-06-08; 8 June matches and 9 June and 31 May do not |
| `Text.ContainsIgnoreCaseIff` | src/repository/contacts.py:129-134 | the scan succeeds iff some position of the field holds the filter text, ignoring ASCII case |
| `Text.ContainsIgnoresCase` | src/repository/contacts.py:129-134 | matching gives the same answer after lower-casing both field and filter |
| `Models.Contact.FitsColumns` | src/database/models.py:12-17 | the varchar bounds of the contact columns (30, 30, 80, 20, 150) and a date Python can represent |
| `Models.User.FitsColumns` | src/database/models.py:24-29 | the varchar bounds of the user columns (50, 250, 255, 255, 255) |
| `Models.Consistent` | src/database/models.py:11-25 | both primary keys and the user email are unique, and every non-null contact owner names an existing user |
| `Models.NewUser` | src/database/models.py:21-30 | a new user row has the given id, username, email and password, a creation time set to now, `confirmed` set to false, and no avatar and no refresh token |
| `Models.DeleteUser` | src/database/models.py:18 | under the declared SQL `ON DELETE CASCADE`, deleting a user removes exactly that user and exactly the contacts they own |
| `Models.DeleteUserKeepsConsistency` | src/database/models.py:11-25 | after a cascading delete, the primary keys and the email stay unique, every remaining contact's owner exists, and none is owned by the deleted user |
| `Schemas.ContactBase.Valid` | src/schemas.py:8-14 | the creation body's bounds: name and surname at most 30, phone at most 20, additional data at most 150 characters; the email is not bounded |
| `Schemas.ContactUpdate.Valid` | src/schemas.py:21-27 | the same bounds, each applying only to a field that is present |
| `Schemas.UserModel.Valid` | src/schemas.py:38-41 | username of 4-16 characters and password of 6-10 |
| `Schemas.EmptyUpdate` | src/schemas.py:21-27 | every patch field defaults to None, and the empty patch is valid |
| `Schemas.ResponseFrom` | src/schemas.py:30-35 | a response carries the row's id and all six base fields; a row within its columns gives a valid base |
| `Schemas.ParseUserModel` | src/schemas.py:38-41 | a signup body is accepted iff the username has 4-16 characters and the password 6-10 |
| `Schemas.UserDbFrom` | src/schemas.py:44-53 | a user row reads as a `UserDb` iff its username, creation time and avatar are not NULL, and then field for field |
| `Schemas.SignupResponse` | src/schemas.py:56-58 | the detail defaults to "User successfully created" |
| `Schemas.LoginResponse` | src/schemas.py:61-64 | the token type defaults to "bearer" |
| `Schemas.ValidBaseFitsColumns` | src/schemas.py:8-14 | a valid creation body fits the contact columns iff its email has at most 80 characters (the schema does not bound it) |
| `Contacts.GetContacts` | src/repository/contacts.py:17-28 | the result is the owned rows, in the model's fixed storage order, from position `skip` on, at most `limit` of them, and holds only the user's rows |
| `Contacts.PagesConcatenate` | src/repository/contacts.py:28 | page (skip, a) followed by page (skip + a, b) is page (skip, a + b): in the model's fixed storage order, paging never skips or repeats a row |
| `Contacts.FirstPageListsAll` | src/repository/contacts.py:28 | offset 0 with a limit at least the table size lists all the user's rows |
| `Contacts.FindOwned` | src/repository/contacts.py:41 | the position found is the first row with both the id and the owner; None iff no row has both |
| `Contacts.GetContact` | src/repository/contacts.py:31-41 | a contact is returned iff some row has the id and is owned by the user, and then it is such a row |
| `Contacts.TenantIsolation` | src/repository/contacts.py:41 | with unique ids, a contact owned by one user is not found for any other user |
| `Contacts.GetContactFindsTarget` | src/repository/contacts.py:41 | with unique ids, the owned row with the id is the one returned |
| `Contacts.CreateThenGet` | src/repository/contacts.py:54-66 | after inserting the created row under a fresh id, get returns it, and its response is the body plus that id |
| `Contacts.ContactTable.constructor` | src/database/models.py:9-11 | an empty table whose key sequence starts at 1 |
| `Contacts.ContactTable.CreateContact` | src/repository/contacts.py:44-66 | appends one row with the body's six fields, owned by the user, under the next id; earlier rows are unchanged and ids stay unique |
| `Contacts.Removed` | src/repository/contacts.py:79-83 | with no owned match the table is unchanged; otherwise exactly the matched row is taken out |
| `Contacts.RemovedKeepsUnique` | src/repository/contacts.py:79-83 | removing keeps ids unique and adds no row |
| `Contacts.RemoveThenGetNone` | src/repository/contacts.py:79-83 | after a remove, get for the same id and user finds nothing, so a second remove returns None |
| `Contacts.RemoveKeepsOtherTenants` | src/repository/contacts.py:79-83 | a remove leaves every other user's rows, in order, as they were |
| `Contacts.ContactTable.RemoveContact` | src/repository/contacts.py:69-83 | returns the owned match and deletes it, or returns None and leaves the table unchanged |
| `Contacts.ApplyPatch` | src/repository/contacts.py:98-110 | each present patch field overwrites the stored one (an empty string included); absent fields, the id and the owner are unchanged |
| `Contacts.PatchLaws` | src/repository/contacts.py:98-110 | the empty patch changes nothing, a patch applied twice equals it applied once, and two patches compose into one where the later field wins |
| `Contacts.NameOnlyPatch` | src/repository/contacts.py:99-100 | a patch holding only a name, even "", changes only the name |
| `Contacts.PatchKeepsColumns` | src/repository/contacts.py:98-110 | a valid patch keeps a row within its columns iff any new email has at most 80 characters |
| `Contacts.Updated` | src/repository/contacts.py:97-113 | with no owned match the table is unchanged; otherwise only the matched row changes, to the patched row |
| `Contacts.UpdatedKeepsUnique` | src/repository/contacts.py:97-113 | an update keeps ids unique |
| `Contacts.UpdateThenGet` | src/repository/contacts.py:97-113 | after an update, get returns the patched contact, or None if there was no owned match |
| `Contacts.UpdateKeepsOtherTenants` | src/repository/contacts.py:97-113 | an update leaves every other user's rows as they were |
| `Contacts.ContactTable.UpdateContact` | src/repository/contacts.py:86-113 | assigns each present field of the patch to the owned match and returns it; returns None and changes nothing without a match |
| `Contacts.AdmitsIff` | src/repository/contacts.py:129-134 | a filter admits a field iff it is None or "" or it occurs in the field, ignoring case |
| `Contacts.SearchContacts` | src/repository/contacts.py:116-135 | a row is returned iff it is owned by the user and every truthy filter occurs, ignoring case, in its name, surname or email respectively |
| `Contacts.SearchWithoutFiltersListsAll` | src/repository/contacts.py:128-135 | with every filter None or "", search returns all the user's rows in storage order |
| `Contacts.GetUpcomingBirthdays` | src/repository/contacts.py:138-183 | fails iff today + 7 passes year 9999; otherwise returns exactly the owned rows that the two-branch month/day filter accepts |
| `Contacts.UpcomingBirthdaysInWindow` | src/repository/contacts.py:138-148 | the corrected query: exactly the owned rows whose birth month and day fall on one of today .. today + 7 |
| `Contacts.UpcomingWithinMonth` | src/repository/contacts.py:154-162 | when the week stays inside one month, the query's result equals the corrected query's |
| `Contacts.UpcomingAcrossYearEnd` | src/repository/contacts.py:163-183 | when the week crosses year-end, the query's result equals the corrected query's, for rows with real birth dates |
| `Contacts.UpcomingAcrossMonthIsEmpty` | src/repository/contacts.py:154-162 | when the week crosses a month boundary inside the year, the query returns no contacts |
| `Auth.Stamped` | src/services/auth.py:74-79 | the claims are the caller's keys plus iat and exp (and scope when given); those are set as given, and every other caller claim is kept |
| `Auth.CreateAccessToken` | src/services/auth.py:65-81 | iat = now; exp = now + expires_delta seconds when it is truthy, otherwise now + 15 minutes (so 0 and None give the default); scope = "access_token" |
| `Auth.CreateRefreshToken` | src/services/auth.py:83-99 | as for access tokens, with a 7-day default lifetime and scope "refresh_token" |
| `Auth.CreateEmailToken` | src/services/auth.py:149-161 | iat = now and exp = now + 7 days; no scope claim is added |
| `Auth.DecodeRefreshToken` | src/services/auth.py:101-116 | returns sub iff the token decodes with scope "refresh_token" and a sub; a decode failure is 401 "Could not validate credentials"; another scope is 401 "Invalid scope for token"; a missing scope, or a missing sub on a refresh-scoped token, raises KeyError |
| `Auth.UserByEmail` | src/services/auth.py:144 | a user is found iff the subject is a string that some user has as email, and then that user |
| `Auth.GetCurrentUser` | src/services/auth.py:118-147 | returns a user iff the token decodes with scope "access_token" and a string sub that some user has as email; every HTTP refusal is the single 401 credentials error with the Bearer header; a KeyError is raised exactly for a missing scope, or a missing sub on an access token |
| `Auth.GetEmailFromToken` | src/services/auth.py:163-178 | a decoded token gives its sub whatever its scope; a decode failure is 422 "Invalid token for email verification" |
| `Auth.CurrentUserIsUnique` | src/services/auth.py:144 | with unique emails, the user returned is the only one with the token's email |
| `Auth.RefreshTokenIsNotAccess` | src/services/auth.py:133-140 | a refresh token, decoded intact, is refused by the current-user check with the credentials error |
| `Auth.AccessTokenIsNotRefresh` | src/services/auth.py:109-114 | an access token, decoded intact, is refused by the refresh check with "Invalid scope for token" |
| `Auth.AccessTokenAuthenticates` | src/services/auth.py:133-147 | an access token for an existing user's email, decoded intact, authenticates exactly that user |
| `Auth.RefreshTokenYieldsSubject` | src/services/auth.py:109-113 | a refresh token for a subject, decoded intact, yields that subject |
| `Auth.EmailIgnoresScope` | src/services/auth.py:171-174 | tokens that differ only in their scope claim give the same email-verification result |
| `Auth.EmailTokenCrashesCurrentUser` | src/services/auth.py:133-140 | an email-confirmation token used as a bearer token raises KeyError('scope') instead of a 401 |
| `Auth.EmailTokenCrashesRefresh` | src/services/auth.py:109-116 | an email-confirmation token sent to the refresh check raises KeyError('scope') instead of a 401 |
| `Auth.GetCurrentUserChecked` | src/services/auth.py:127-147 | the corrected check: every refusal is the 401 credentials error; it agrees with the original wherever the original raises no KeyError |
| `AuthSlice.StoredOrNull` | ReactApp/fastapi-react-ui/src/redux/authSlice.js:5-6 | a stored value is read back iff the key is present and not the empty string |
| `AuthSlice.MirrorsSurviveReload` | ReactApp/fastapi-react-ui/src/redux/authSlice.js:4-6 | a value the state mirrors into storage is recovered on reload, except that "" comes back as null |
| `AuthSlice.AuthState.constructor` | ReactApp/fastapi-react-ui/src/redux/authSlice.js:4-9 | token and username are the stored values or null, status is 'idle' and error is null |
| `AuthSlice.AuthState.Logout` | ReactApp/fastapi-react-ui/src/redux/authSlice.js:29-34 | token and username become null and both storage keys are removed; status and error are unchanged |
| `AuthSlice.AuthState.LoginFulfilled` | ReactApp/fastapi-react-ui/src/redux/authSlice.js:38-43 | token and username take the payload's values and are written to storage; status and error are unchanged |
| `AuthSlice.AuthState.SignupFulfilled` | ReactApp/fastapi-react-ui/src/redux/authSlice.js:44-46 | only the status changes, to 'succeeded' |
| `AuthSlice.AuthState.Rejected` | ReactApp/fastapi-react-ui/src/redux/authSlice.js:47-52 | only the error changes, to the action's message |
| `AuthSlice.AuthState.Dispatch` | ReactApp/fastapi-react-ui/src/redux/authSlice.js:25-53 | each handled action makes exactly its case's change to the state and to storage, other actions change nothing, and every transition keeps the storage mirror and the two-valued status |

## Left out

- I/O and plumbing: the database session, `commit`, `refresh` and the async machinery are not modelled. Each write is a direct update of the in-memory table, and calls run one after another.
- HTTP routing, rate limiting, email delivery, avatar upload, the seeding script and the React components are not part of this model.
- JWT signing and verification (`jwt.encode` and `jwt.decode`) are foreign code. A token is its claims, and decoding is a parameter that may fail. What makes the library's decode fail (signature, expiry, claim types) is not modelled.
- Password hashing (`verify_password`, `get_password_hash`) is foreign code and is left out. So is the unused Redis client `Auth.cache`, and the `print` of the decode error in `get_email_from_token`.
- Clocks: `date.today()` and `datetime.now()` are parameters. The source reads the clock twice per token (for iat and for exp). The model uses one instant, and times are whole seconds.
- `Auth.CreateAccessToken`: `expires_delta` is a float in the source; the model takes whole seconds.
- `Auth.CreateRefreshToken`: `expires_delta` is a float in the source; the model takes whole seconds.
- `Auth.UserByEmail`: the users repository is not part of this model. It is modelled as the first user whose email equals the subject. A subject that is not a string finds nobody; the database's reaction to a non-string parameter is not modelled.
- `Text.ContainsIgnoreCaseIff`: models `ILIKE` under ASCII case folding. It assumes the filter text holds no LIKE metacharacters (`%`, `_`, and the default escape character `\`), because the source does not escape them. Case folding that depends on the database collation is not modelled.
- `Contacts.GetContacts`: `skip` and `limit` are natural numbers. The database's reaction to a negative skip or limit is not modelled.
- `Contacts.PagesConcatenate`: the queries have no `ORDER BY`, and the model gives the table one fixed storage order. The database does not guarantee that order, nor the same order for two separate queries. This lemma holds only under that assumption, and so do the order claims of `Contacts.GetContacts` and `Contacts.SearchWithoutFiltersListsAll`. Without the assumption, consecutive pages may skip or repeat rows.
- `Models.DeleteUser`: models only the declared SQL-level `ON DELETE CASCADE`. An ORM `delete` of a user would first set the contacts' `user_id` to NULL, because the `tags` backref keeps the default cascade. The database enforces the foreign key only when foreign keys are switched on. No code in the core deletes users.
- `Contacts.ContactTable.CreateContact`: ids come from a counter starting at 1, standing in for the database's key sequence. The 80-character email column is not enforced on insert, because the schema does not bound the email; `Schemas.ValidBaseFitsColumns` states this gap.
- `Contacts.ApplyPatch`: an update cannot set `additional_data` back to NULL, because a None field means "leave unchanged" in the source too.
- `Schemas.ContactBase.Valid`: `EmailStr` address validation is not modelled. An email is any string.
- `birth_date` is a `datetime` in the creation schema and a `Date` column in the table. The model carries only the date.
- `AuthSlice.AuthState.LoginFulfilled`: the login and signup thunks are network calls. Only their fulfilled and rejected results are modelled, as actions with string fields. A payload field that the server does not send (JavaScript `undefined`) is not modelled. The slice has no `pending` cases, and the model adds none.

## Findings

| source | as written | input that shows it | evidently intended | confidence | as-written member | corrected member |
|---|---|---|---|---|---|---|
| src/repository/contacts.py:154-162 | when the week crosses a month boundary inside a year, the month and the day are tested independently with `BETWEEN`, so the day range is empty | today = 2024-06-28 (next week 2024-07-05), a contact born 1990-06-30 | every contact whose birthday falls on one of the next 8 days is returned | high; not executed | `Birthdays.MonthCrossingMissesBirthday` | `Contacts.UpcomingBirthdaysInWindow` |
| src/services/auth.py:133-140 | `payload['scope']` raises KeyError for a token without a scope claim, and only `JWTError` is caught | an email-confirmation token `{sub, iat, exp}` presented as the bearer token | the request is refused with 401 "Could not validate credentials" | medium; not executed | `Auth.EmailTokenCrashesCurrentUser` | `Auth.GetCurrentUserChecked` |

The repository's `Contacts.GetUpcomingBirthdays` keeps the code's behaviour, so that its lemmas describe the program as it runs. Against it stands `Contacts.UpcomingBirthdaysInWindow`, the corrected query. `Contacts.UpcomingWithinMonth` and `Contacts.UpcomingAcrossYearEnd` prove the two equal in the cases where the code is right, and `Contacts.UpcomingAcrossMonthIsEmpty` shows where they part.

=== FILE: auth.dfy ===
/**
 * The token part of the authentication service: which claims each kind of token carries and
 * when it expires, and how a decoded token is accepted or refused. Signing and verifying are
 * abstract: a token is its claims, and decoding a token either fails (None: an invalid
 * signature, an expired token, a malformed token) or yields the claims (Some).
 */
module Auth {
  import opened Wrappers
  import Models

  /** A claim value: a string, a number (NumericDate times are seconds), or JSON null. */
  datatype Claim = Str(s: string) | Num(n: int) | Null

  /** The claims dictionary of a token. */
  type Payload = map<string, Claim>

  /** The exceptions the service raises: an HTTP error, or a KeyError nobody catches. */
  datatype Failure =
    | HttpError(status: int, detail: string, bearerChallenge: bool)
    | KeyError(key: string)

  datatype Outcome<+T> = Ok(value: T) | Raised(failure: Failure)

  const Unauthorized := 401
  const UnprocessableEntity := 422

  const AccessTokenSeconds := 15 * 60
  const RefreshTokenSeconds := 7 * 24 * 60 * 60
  const EmailTokenSeconds := 7 * 24 * 60 * 60

  const AccessScope := "access_token"
  const RefreshScope := "refresh_token"

  /** The single error of `get_current_user`, with its `WWW-Authenticate: Bearer` header. */
  const CredentialsError := HttpError(Unauthorized, "Could not validate credentials", true)

  // ---------------------------------------------------------------- claim construction

  /** Python truthiness of `expires_delta`: None and 0 are false. */
  predicate Truthy(expiresDelta: Option<int>) {
    expiresDelta.Some? && expiresDelta.value != 0
  }

  /** The lifetime a token gets: `expires_delta` seconds if truthy, otherwise the default. */
  function Lifetime(expiresDelta: Option<int>, default: int): int {
    if Truthy(expiresDelta) then expiresDelta.value else default
  }

  /**
   * The caller's claims with `iat`, `exp` and, when given, `scope` set; the caller's other
   * claims are kept, and the three written keys override any the caller supplied.
   */
  function Stamped(data: Payload, iat: int, exp: int, scope: Option<string>): (p: Payload)
    ensures p.Keys == data.Keys + {"iat", "exp"} + (if scope.Some? then {"scope"} else {})
    ensures p["iat"] == Num(iat) && p["exp"] == Num(exp)
    ensures scope.Some? ==> p["scope"] == Str(scope.value)
    ensures forall k :: k in data && k != "iat" && k != "exp" && (scope.Some? ==> k != "scope") ==> p[k] == data[k]
  {
    var base := data["iat" := Num(iat)]["exp" := Num(exp)];
    if scope.Some? then base["scope" := Str(scope.value)] else base
  }

  /** `create_access_token`: copies the claims and adds iat, exp and scope "access_token". */
  method CreateAccessToken(data: Payload, now: int, expiresDelta: Option<int> := None) returns (toEncode: Payload)
    ensures toEncode == Stamped(data, now, now + Lifetime(expiresDelta, AccessTokenSeconds), Some(AccessScope))
    ensures toEncode["exp"] == Num(now + (if Truthy(expiresDelta) then expiresDelta.value else 15 * 60))
  {
    toEncode := data;
    var expire: int;
    if Truthy(expiresDelta) {
      expire := now + expiresDelta.value;
    } else {
      expire := now + AccessTokenSeconds;
    }
    toEncode := toEncode["iat" := Num(now)];
    toEncode := toEncode["exp" := Num(expire)];
    toEncode := toEncode["scope" := Str(AccessScope)];
  }

  /** `create_refresh_token`: as above, with a default lifetime of 7 days and scope "refresh_token". */
  method CreateRefreshToken(data: Payload, now: int, expiresDelta: Option<int> := None) returns (toEncode: Payload)
    ensures toEncode == Stamped(data, now, now + Lifetime(expiresDelta, RefreshTokenSeconds), Some(RefreshScope))
    ensures toEncode["exp"] == Num(now + (if Truthy(expiresDelta) then expiresDelta.value else 7 * 24 * 3600))
  {
    toEncode := data;
    var expire: int;
    if Truthy(expiresDelta) {
      expire := now + expiresDelta.value;
    } else {
      expire := now + RefreshTokenSeconds;
    }
    toEncode := toEncode["iat" := Num(now)];
    toEncode := toEncode["exp" := Num(expire)];
    toEncode := toEncode["scope" := Str(RefreshScope)];
  }

  /** `create_email_token`: adds iat and an expiry 7 days on, and no scope claim. */
  method CreateEmailToken(data: Payload, now: int) returns (toEncode: Payload)
    ensures toEncode == Stamped(data, now, now + EmailTokenSeconds, None)
    ensures "scope" in toEncode <==> "scope" in data
  {
    toEncode := data;
    var expire := now + EmailTokenSeconds;
    toEncode := toEncode["iat" := Num(now)];
    toEncode := toEncode["exp" := Num(expire)];
  }

  // ---------------------------------------------------------------- decisions on a decoded token

  /**
   * `decode_refresh_token`: the subject of a refresh token. A decode failure and a wrong scope
   * are 401 errors with different details; a missing `scope` or `sub` key is a KeyError.
   */
  function DecodeRefreshToken(decoded: Option<Payload>): (r: Outcome<Claim>)
    ensures r.Ok? <==> decoded.Some? && "scope" in decoded.value && decoded.value["scope"] == Str(RefreshScope)
                       && "sub" in decoded.value
    ensures r.Ok? ==> r.value == decoded.value["sub"]
    ensures decoded.None? ==> r == Raised(HttpError(Unauthorized, "Could not validate credentials", false))
    ensures decoded.Some? && "scope" in decoded.value && decoded.value["scope"] != Str(RefreshScope) ==>
      r == Raised(HttpError(Unauthorized, "Invalid scope for token", false))
    ensures decoded.Some? && "scope" !in decoded.value ==> r == Raised(KeyError("scope"))
    ensures decoded.Some? && "scope" in decoded.value && decoded.value["scope"] == Str(RefreshScope) && "sub" !in decoded.value ==>
      r == Raised(KeyError("sub"))
  {
    match decoded
    case None => Raised(HttpError(Unauthorized, "Could not validate credentials", false))
    case Some(payload) =>
      if "scope" !in payload then Raised(KeyError("scope"))
      else if payload["scope"] == Str(RefreshScope) then
        if "sub" in payload then Ok(payload["sub"]) else Raised(KeyError("sub"))
      else Raised(HttpError(Unauthorized, "Invalid scope for token", false))
  }

  /** `repository_users.get_user_by_email`: the first user whose email equals the claim. */
  function UserByEmail(users: seq<Models.User>, email: Claim): (r: Option<Models.User>)
    ensures r.Some? <==> email.Str? && exists u :: u in users && u.email == email.s
    ensures r.Some? ==> r.value in users && Str(r.value.email) == email
  {
    if users == [] || !email.Str? then None
    else if users[0].email == email.s then Some(users[0])
    else UserByEmail(users[1..], email)
  }

  /**
   * `get_current_user`: the user named by an access token. Every refusal is the single 401
   * credentials error, except a missing `scope` or `sub` key, which is a KeyError.
   */
  function GetCurrentUser(decoded: Option<Payload>, users: seq<Models.User>): (r: Outcome<Models.User>)
    ensures r.Ok? <==>
      && decoded.Some? && "scope" in decoded.value && decoded.value["scope"] == Str(AccessScope)
      && "sub" in decoded.value && decoded.value["sub"].Str?
      && exists u :: u in users && u.email == decoded.value["sub"].s
    ensures r.Ok? ==> r.value in users && Str(r.value.email) == decoded.value["sub"]
    ensures r.Raised? && r.failure.HttpError? ==> r.failure == CredentialsError
    ensures r.Raised? && r.failure.KeyError? ==>
      decoded.Some? && ("scope" !in decoded.value || (decoded.value["scope"] == Str(AccessScope) && "sub" !in decoded.value))
    ensures decoded.Some? && "scope" !in decoded.value ==> r == Raised(KeyError("scope"))
    ensures decoded.Some? && "scope" in decoded.value && decoded.value["scope"] == Str(AccessScope) && "sub" !in decoded.value ==>
      r == Raised(KeyError("sub"))
  {
    match decoded
    case None => Raised(CredentialsError)
    case Some(payload) =>
      if "scope" !in payload then Raised(KeyError("scope"))
      else if payload["scope"] == Str(AccessScope) then
        if "sub" !in payload then Raised(KeyError("sub"))
        else if payload["sub"] == Null then Raised(CredentialsError)
        else match UserByEmail(users, payload["sub"])
          case None => Raised(CredentialsError)
          case Some(user) => Ok(user)
      else Raised(CredentialsError)
  }

  /** `get_email_from_token`: the subject of any token that decodes; no scope is checked. */
  function GetEmailFromToken(decoded: Option<Payload>): (r: Outcome<Claim>)
    ensures decoded.None? ==> r == Raised(HttpError(UnprocessableEntity, "Invalid token for email verification", false))
    ensures decoded.Some? ==> r == if "sub" in decoded.value then Ok(decoded.value["sub"]) else Raised(KeyError("sub"))
  {
    match decoded
    case None => Raised(HttpError(UnprocessableEntity, "Invalid token for email verification", false))
    case Some(payload) =>
      if "sub" in payload then Ok(payload["sub"]) else Raised(KeyError("sub"))
  }

  // ---------------------------------------------------------------- properties

  /** With unique emails, the user `get_current_user` returns is the only one with that email. */
  lemma CurrentUserIsUnique(decoded: Option<Payload>, users: seq<Models.User>, u: Models.User)
    requires Models.UniqueEmails(users)
    requires GetCurrentUser(decoded, users).Ok? && u in users && Str(u.email) == decoded.value["sub"]
    ensures GetCurrentUser(decoded, users).value == u
  {
    var v := GetCurrentUser(decoded, users).value;
    var i :| 0 <= i < |users| && users[i] == u;
    var j :| 0 <= j < |users| && users[j] == v;
    assert Models.UserEmail(users[i]) == Models.UserEmail(users[j]);
  }

  /** A refresh token, decoded intact, is refused as an access token. */
  lemma RefreshTokenIsNotAccess(data: Payload, now: int, exp: int, users: seq<Models.User>)
    ensures GetCurrentUser(Some(Stamped(data, now, exp, Some(RefreshScope))), users) == Raised(CredentialsError)
  {
    assert Str(RefreshScope) != Str(AccessScope);
  }

  /** An access token, decoded intact, is refused as a refresh token. */
  lemma AccessTokenIsNotRefresh(data: Payload, now: int, exp: int)
    ensures DecodeRefreshToken(Some(Stamped(data, now, exp, Some(AccessScope))))
         == Raised(HttpError(Unauthorized, "Invalid scope for token", false))
  {
    assert Str(RefreshScope) != Str(AccessScope);
  }

  /** An access token for an existing user's email, decoded intact, authenticates that user. */
  lemma AccessTokenAuthenticates(email: string, now: int, exp: int, users: seq<Models.User>, u: Models.User)
    requires Models.UniqueEmails(users) && u in users && u.email == email
    ensures GetCurrentUser(Some(Stamped(map["sub" := Str(email)], now, exp, Some(AccessScope))), users) == Ok(u)
  {
    var p := Stamped(map["sub" := Str(email)], now, exp, Some(AccessScope));
    assert p["sub"] == Str(email);
    CurrentUserIsUnique(Some(p), users, u);
  }

  /** A refresh token for a subject, decoded intact, yields that subject. */
  lemma RefreshTokenYieldsSubject(sub: Claim, now: int, exp: int)
    ensures DecodeRefreshToken(Some(Stamped(map["sub" := sub], now, exp, Some(RefreshScope)))) == Ok(sub)
  {
    var p := Stamped(map["sub" := sub], now, exp, Some(RefreshScope));
    assert p["sub"] == sub;
  }

  /** `get_email_from_token` ignores the scope claim: tokens that differ only there give the same result. */
  lemma EmailIgnoresScope(p: Payload, scope: Claim)
    ensures GetEmailFromToken(Some(p["scope" := scope])) == GetEmailFromToken(Some(p))
  {
    if "sub" in p {
      assert p["scope" := scope]["sub"] == p["sub"];
    }
  }

  /**
   * An email-confirmation token (which has no scope claim) presented as a bearer token makes
   * `get_current_user` raise a KeyError rather than the 401 credentials error.
   */
  lemma EmailTokenCrashesCurrentUser(data: Payload, now: int, users: seq<Models.User>)
    requires "scope" !in data
    ensures GetCurrentUser(Some(Stamped(data, now, now + EmailTokenSeconds, None)), users) == Raised(KeyError("scope"))
  {
  }

  /**
   * An email-confirmation token presented to the refresh endpoint makes `decode_refresh_token`
   * raise a KeyError as well, rather than one of its two 401 errors.
   */
  lemma EmailTokenCrashesRefresh(data: Payload, now: int)
    requires "scope" !in data
    ensures DecodeRefreshToken(Some(Stamped(data, now, now + EmailTokenSeconds, None))) == Raised(KeyError("scope"))
  {
  }

  /**
   * The evidently intended `get_current_user`: a token without a `scope` or `sub` claim is
   * refused with the credentials error like every other bad token.
   */
  function GetCurrentUserChecked(decoded: Option<Payload>, users: seq<Models.User>): (r: Outcome<Models.User>)
    ensures r.Raised? ==> r.failure == CredentialsError
    ensures GetCurrentUser(decoded, users).Raised? && GetCurrentUser(decoded, users).failure.KeyError? ==>
      r == Raised(CredentialsError)
    ensures !(GetCurrentUser(decoded, users).Raised? && GetCurrentUser(decoded, users).failure.KeyError?) ==>
      r == GetCurrentUser(decoded, users)
  {
    match decoded
    case None => Raised(CredentialsError)
    case Some(payload) =>
      if "scope" in payload && payload["scope"] == Str(AccessScope) && "sub" in payload && payload["sub"] != Null then
        match UserByEmail(users, payload["sub"])
        case None => Raised(CredentialsError)
        case Some(user) => Ok(user)
      else Raised(CredentialsError)
  }
}

=== FILE: auth_slice.dfy ===
/**
 * The front end's authentication slice: the state the reducers update in place, and the
 * browser's localStorage, which the reducers write alongside it and the initial state reads.
 */
module AuthSlice {
  import opened Wrappers

  const TokenKey := "token"
  const UsernameKey := "username"

  /** `localStorage.getItem(key) || null`: a missing key and an empty string both give null. */
  function StoredOrNull(storage: map<string, string>, key: string): (r: Option<string>)
    ensures r.Some? <==> key in storage && storage[key] != ""
    ensures r.Some? ==> r.value == storage[key]
  {
    if key in storage && storage[key] != "" then Some(storage[key]) else None
  }

  /** State value `v` is what `localStorage[key]` holds: both null, or both the same string. */
  predicate Mirrors(v: Option<string>, storage: map<string, string>, key: string) {
    if v.Some? then key in storage && storage[key] == v.value else key !in storage || storage[key] == ""
  }

  /**
   * Reloading the page recovers a mirrored value, except that a stored empty string comes back
   * as null.
   */
  lemma MirrorsSurviveReload(v: Option<string>, storage: map<string, string>, key: string)
    requires Mirrors(v, storage, key)
    ensures StoredOrNull(storage, key) == if v == Some("") then None else v
  {
  }

  /** The actions the slice reduces; any other action leaves the state as it is. */
  datatype Action =
    | Logout
    | LoginFulfilled(accessToken: string, username: string)
    | SignupFulfilled
    | LoginRejected(loginMessage: string)
    | SignupRejected(signupMessage: string)
    | Other

  class AuthState {
    var token: Option<string>
    var username: Option<string>
    var status: string
    var error: Option<string>
    /** The browser's localStorage. */
    var storage: map<string, string>

    /**
     * Token and username mirror localStorage, and the status is one of the two values the
     * reducers ever write.
     */
    ghost predicate Valid()
      reads this
    {
      && Mirrors(token, storage, TokenKey)
      && Mirrors(username, storage, UsernameKey)
      && (status == "idle" || status == "succeeded")
    }

    /** `initialState`, read from localStorage as the page loads. */
    constructor (stored: map<string, string>)
      ensures Valid()
      ensures token == StoredOrNull(stored, TokenKey) && username == StoredOrNull(stored, UsernameKey)
      ensures status == "idle" && error == None && storage == stored
    {
      token := StoredOrNull(stored, TokenKey);
      username := StoredOrNull(stored, UsernameKey);
      status := "idle";
      error := None;
      storage := stored;
    }

    /** `logout`: clears token and username in the state and in localStorage. */
    method Logout()
      requires Valid()
      modifies this
      ensures Valid()
      ensures token == None && username == None
      ensures storage == old(storage) - {TokenKey, UsernameKey}
      ensures status == old(status) && error == old(error)
    {
      token := None;
      username := None;
      storage := storage - {TokenKey};
      storage := storage - {UsernameKey};
    }

    /** `login.fulfilled`: stores the access token and the username in the state and in localStorage. */
    method LoginFulfilled(accessToken: string, name: string)
      requires Valid()
      modifies this
      ensures Valid()
      ensures token == Some(accessToken) && username == Some(name)
      ensures storage == old(storage)[TokenKey := accessToken][UsernameKey := name]
      ensures status == old(status) && error == old(error)
    {
      token := Some(accessToken);
      username := Some(name);
      storage := storage[TokenKey := accessToken];
      storage := storage[UsernameKey := name];
    }

    /** `signup.fulfilled`: sets only the status. */
    method SignupFulfilled()
      requires Valid()
      modifies this
      ensures Valid()
      ensures status == "succeeded"
      ensures token == old(token) && username == old(username) && error == old(error) && storage == old(storage)
    {
      status := "succeeded";
    }

    /** `login.rejected` and `signup.rejected`: set only the error message. */
    method Rejected(message: string)
      requires Valid()
      modifies this
      ensures Valid()
      ensures error == Some(message)
      ensures token == old(token) && username == old(username) && status == old(status) && storage == old(storage)
    {
      error := Some(message);
    }

    /** The reducer: dispatches an action to its case. */
    method Dispatch(action: Action)
      requires Valid()
      modifies this
      ensures Valid()
      ensures action.Other? ==>
        token == old(token) && username == old(username) && status == old(status)
        && error == old(error) && storage == old(storage)
      ensures action.Logout? ==>
        token == None && username == None && storage == old(storage) - {TokenKey, UsernameKey}
        && status == old(status) && error == old(error)
      ensures action.LoginFulfilled? ==>
        token == Some(action.accessToken) && username == Some(action.username)
        && storage == old(storage)[TokenKey := action.accessToken][UsernameKey := action.username]
        && status == old(status) && error == old(error)
      ensures action.SignupFulfilled? ==>
        status == "succeeded"
        && token == old(token) && username == old(username) && error == old(error) && storage == old(storage)
      ensures action.LoginRejected? || action.SignupRejected? ==>
        error == Some(if action.LoginRejected? then action.loginMessage else action.signupMessage)
        && token == old(token) && username == old(username) && status == old(status) && storage == old(storage)
    {
      match action
      case Logout => Logout();
      case LoginFulfilled(t, u) => LoginFulfilled(t, u);
      case SignupFulfilled => SignupFulfilled();
      case LoginRejected(m) => Rejected(m);
      case SignupRejected(m) => Rejected(m);
      case Other =>
    }
  }
}

=== FILE: birthdays.dfy ===
/**
 * The upcoming-birthday rule of the contacts repository, as the query writes it: it compares
 * only the month and the day of a birth date with those of today and of today + 7 days, and
 * chooses between two filters by comparing (month, day) pairs.
 */
module Birthdays {
  import opened Calendar

  /** Python's tuple comparison `(a.month, a.day) <= (b.month, b.day)`. */
  predicate MonthDayAtMost(a: Date, b: Date) {
    a.month < b.month || (a.month == b.month && a.day <= b.day)
  }

  /**
   * The filter the query applies to a birth date, given today and next week (today + 7).
   * First branch: month BETWEEN the two months AND day BETWEEN the two days, independently.
   * Second branch (the pair comparison failed): same month and a later day, or the end month
   * and an earlier day, or a month strictly between the two.
   */
  predicate QueryMatches(today: Date, nextWeek: Date, birth: Date) {
    if MonthDayAtMost(today, nextWeek) then
      && today.month <= birth.month <= nextWeek.month
      && today.day <= birth.day <= nextWeek.day
    else
      || (birth.month == today.month && birth.day >= today.day)
      || (birth.month == nextWeek.month && birth.day <= nextWeek.day)
      || (today.month < birth.month && birth.month < nextWeek.month)
  }

  /** The window the query is meant to select: the birth month and day fall on one of today .. today + 7. */
  predicate InWindow(today: Date, birth: Date)
    requires IsCalendarDate(today)
  {
    exists k :: 0 <= k <= 7 && AddDays(today, k).month == birth.month && AddDays(today, k).day == birth.day
  }

  /** The query takes its first branch exactly when today + 7 is in the same year as today. */
  lemma FirstBranchIffSameYear(today: Date)
    requires IsCalendarDate(today)
    ensures MonthDayAtMost(today, AddDays(today, 7)) <==> AddDays(today, 7).year == today.year
  {
    if today.day + 7 <= DaysInMonth(today.year, today.month) {
      AddDaysWithinMonth(today, 7);
    } else {
      AddDaysIntoNextMonth(today, 7);
    }
  }

  /** Within one month, the days of the window are today.day .. today.day + 7 of that month. */
  lemma InWindowWithinMonth(today: Date, birth: Date)
    requires IsCalendarDate(today) && today.day + 7 <= DaysInMonth(today.year, today.month)
    ensures InWindow(today, birth) <==>
      birth.month == today.month && today.day <= birth.day <= today.day + 7
  {
    if birth.month == today.month && today.day <= birth.day <= today.day + 7 {
      var k := birth.day - today.day;
      AddDaysWithinMonth(today, k);
    }
    forall k | 0 <= k <= 7
      ensures AddDays(today, k) == Date(today.year, today.month, today.day + k)
    {
      AddDaysWithinMonth(today, k);
    }
  }

  /** A window inside one month is exact: the query selects today through today + 7, inclusive. */
  lemma WithinMonthIsExact(today: Date, birth: Date)
    requires IsCalendarDate(today) && today.day + 7 <= DaysInMonth(today.year, today.month)
    ensures QueryMatches(today, AddDays(today, 7), birth) <==> InWindow(today, birth)
    ensures QueryMatches(today, AddDays(today, 7), birth) <==>
      birth.month == today.month && today.day <= birth.day <= today.day + 7
  {
    AddDaysWithinMonth(today, 7);
    InWindowWithinMonth(today, birth);
  }

  /**
   * A window that crosses a month boundary inside the year matches no birth date at all: the
   * first branch is taken and its day range today.day .. nextWeek.day is empty.
   */
  lemma MonthCrossingMatchesNothing(today: Date, birth: Date)
    requires IsCalendarDate(today) && today.month < 12
    requires DaysInMonth(today.year, today.month) < today.day + 7
    ensures !QueryMatches(today, AddDays(today, 7), birth)
  {
    AddDaysIntoNextMonth(today, 7);
  }

  /** The days of a window that crosses year-end: the rest of December and the start of January. */
  lemma InWindowAcrossYearEnd(today: Date, birth: Date)
    requires IsCalendarDate(today) && today.month == 12 && 31 < today.day + 7
    ensures InWindow(today, birth) <==>
      || (birth.month == 12 && today.day <= birth.day <= 31)
      || (birth.month == 1 && 1 <= birth.day <= today.day + 7 - 31)
  {
    forall k | 0 <= k <= 7
      ensures AddDays(today, k) ==
        if today.day + k <= 31 then Date(today.year, 12, today.day + k)
        else Date(today.year + 1, 1, today.day + k - 31)
    {
      if today.day + k <= 31 {
        AddDaysWithinMonth(today, k);
      } else {
        AddDaysIntoNextMonth(today, k);
      }
    }
    if birth.month == 12 && today.day <= birth.day <= 31 {
      assert AddDays(today, birth.day - today.day).day == birth.day;
    } else if birth.month == 1 && 1 <= birth.day <= today.day + 7 - 31 {
      assert AddDays(today, 31 - today.day + birth.day).day == birth.day;
    }
  }

  /** A window that crosses year-end is exact for every representable birth date. */
  lemma YearEndIsExact(today: Date, birth: Date)
    requires IsCalendarDate(today) && today.month == 12 && 31 < today.day + 7
    requires IsCalendarDate(birth)
    ensures QueryMatches(today, AddDays(today, 7), birth) <==> InWindow(today, birth)
  {
    AddDaysIntoNextMonth(today, 7);
    InWindowAcrossYearEnd(today, birth);
  }

  /** A week starting on 28 June ends on 5 July; a birthday on 30 June lies in it yet is not matched. */
  lemma MonthCrossingMissesBirthday()
    ensures InWindow(Date(2024, 6, 28), Date(1990, 6, 30))
    ensures AddDays(Date(2024, 6, 28), 7) == Date(2024, 7, 5)
    ensures !QueryMatches(Date(2024, 6, 28), AddDays(Date(2024, 6, 28), 7), Date(1990, 6, 30))
  {
    var today := Date(2024, 6, 28);
    AddDaysIntoNextMonth(today, 7);
    AddDaysWithinMonth(today, 2);
    assert AddDays(today, 2) == Date(2024, 6, 30);
  }

  /** From 1 June 2024 the window is 1-8 June: 8 June is in, 9 June and 31 May are out. */
  lemma FirstOfJuneWindow()
    ensures AddDays(Date(2024, 6, 1), 7) == Date(2024, 6, 8)
    ensures QueryMatches(Date(2024, 6, 1), AddDays(Date(2024, 6, 1), 7), Date(1985, 6, 8))
    ensures !QueryMatches(Date(2024, 6, 1), AddDays(Date(2024, 6, 1), 7), Date(1985, 6, 9))
    ensures !QueryMatches(Date(2024, 6, 1), AddDays(Date(2024, 6, 1), 7), Date(1985, 5, 31))
  {
    AddDaysWithinMonth(Date(2024, 6, 1), 7);
  }
}

=== FILE: calendar.dfy ===
/**
 * Proleptic Gregorian dates as Python's `datetime.date` represents them, and the
 * `date + timedelta(days = n)` arithmetic that the birthday query uses.
 */
module Calendar {

  /** A year, month and day; `IsCalendarDate` says when the triple names a real day. */
  datatype Date = Date(year: int, month: int, day: int)

  /** Python's `date.min.year` and `date.max.year`. */
  const MinYear := 1
  const MaxYear := 9999

  predicate IsLeapYear(y: int) {
    y % 4 == 0 && (y % 100 != 0 || y % 400 == 0)
  }

  function DaysInMonth(y: int, m: int): (n: int)
    requires 1 <= m <= 12
    ensures 28 <= n <= 31
    ensures n == 29 <==> m == 2 && IsLeapYear(y)
  {
    if m == 2 then (if IsLeapYear(y) then 29 else 28)
    else if m == 4 || m == 6 || m == 9 || m == 11 then 30
    else 31
  }

  /** A Gregorian day, with no upper bound on the year (so that arithmetic can step past 9999). */
  predicate IsCalendarDate(d: Date) {
    MinYear <= d.year && 1 <= d.month <= 12 && 1 <= d.day <= DaysInMonth(d.year, d.month)
  }

  /** A day that Python's `date` can represent. */
  predicate ValidDate(d: Date) {
    IsCalendarDate(d) && d.year <= MaxYear
  }

  /** The day after `d`. */
  function NextDay(d: Date): (r: Date)
    requires IsCalendarDate(d)
    ensures IsCalendarDate(r)
  {
    if d.day < DaysInMonth(d.year, d.month) then Date(d.year, d.month, d.day + 1)
    else if d.month < 12 then Date(d.year, d.month + 1, 1)
    else Date(d.year + 1, 1, 1)
  }

  /** `d + timedelta(days = n)` for n >= 0. */
  function AddDays(d: Date, n: nat): (r: Date)
    requires IsCalendarDate(d)
    ensures IsCalendarDate(r)
    decreases n
  {
    if n == 0 then d else AddDays(NextDay(d), n - 1)
  }

  /** Days in the years before `y` (Python's `_days_before_year`). */
  function DaysBeforeYear(y: int): int
    requires y >= 1
  {
    var p := y - 1;
    p * 365 + p / 4 - p / 100 + p / 400
  }

  /** Days in the months of year `y` before month `m` (Python's `_days_before_month`). */
  function DaysBeforeMonth(y: int, m: int): int
    requires 1 <= m <= 12
  {
    var table := [0, 31, 59, 90, 120, 151, 181, 212, 243, 273, 304, 334];
    table[m - 1] + (if m > 2 && IsLeapYear(y) then 1 else 0)
  }

  /** The proleptic Gregorian ordinal: 0001-01-01 is day 1 (Python's `date.toordinal`). */
  function Ordinal(d: Date): int
    requires IsCalendarDate(d)
  {
    DaysBeforeYear(d.year) + DaysBeforeMonth(d.year, d.month) + d.day
  }

  lemma YearLength(y: int)
    requires y >= 1
    ensures DaysBeforeYear(y + 1) == DaysBeforeYear(y) + (if IsLeapYear(y) then 366 else 365)
  {
    var p := y - 1;
    assert y / 4 == p / 4 + (if y % 4 == 0 then 1 else 0);
    assert y / 100 == p / 100 + (if y % 100 == 0 then 1 else 0);
    assert y / 400 == p / 400 + (if y % 400 == 0 then 1 else 0);
    assert y % 400 == 0 ==> y % 100 == 0 && y % 4 == 0;
    assert y % 100 == 0 ==> y % 4 == 0;
  }

  /** `NextDay` moves the ordinal forward by exactly one day. */
  lemma NextDayOrdinal(d: Date)
    requires IsCalendarDate(d)
    ensures Ordinal(NextDay(d)) == Ordinal(d) + 1
  {
    if d.day == DaysInMonth(d.year, d.month) && d.month == 12 {
      YearLength(d.year);
    }
  }

  /**
   * `AddDays` agrees with Python, which adds a `timedelta` by adding to the ordinal:
   * the result is the date whose ordinal is `n` more.
   */
  lemma {:induction false} AddDaysOrdinal(d: Date, n: nat)
    requires IsCalendarDate(d)
    ensures Ordinal(AddDays(d, n)) == Ordinal(d) + n
    decreases n
  {
    if n > 0 {
      NextDayOrdinal(d);
      AddDaysOrdinal(NextDay(d), n - 1);
    }
  }

  /** `a` comes strictly before `b` in (year, month, day) order. */
  predicate Before(a: Date, b: Date) {
    || a.year < b.year
    || (a.year == b.year && a.month < b.month)
    || (a.year == b.year && a.month == b.month && a.day < b.day)
  }

  /** The day of the year of a calendar date lies between 1 and the length of its year. */
  lemma DayOfYearBounds(d: Date)
    requires IsCalendarDate(d)
    ensures 1 <= DaysBeforeMonth(d.year, d.month) + d.day <= (if IsLeapYear(d.year) then 366 else 365)
  {
  }

  /** A day of an earlier month of the same year comes no later than the start of a later month. */
  lemma MonthsBefore(y: int, m1: int, m2: int, day: int)
    requires 1 <= m1 < m2 <= 12 && day <= DaysInMonth(y, m1)
    ensures DaysBeforeMonth(y, m1) + day <= DaysBeforeMonth(y, m2)
  {
  }

  /** A whole earlier year ends no later than a later year begins. */
  lemma {:induction false} YearsBefore(y1: int, y2: int)
    requires 1 <= y1 < y2
    ensures DaysBeforeYear(y1) + (if IsLeapYear(y1) then 366 else 365) <= DaysBeforeYear(y2)
    decreases y2 - y1
  {
    YearLength(y1);
    if y1 + 1 < y2 {
      YearsBefore(y1 + 1, y2);
    }
  }

  /** The ordinal preserves the order of dates. */
  lemma OrdinalOrder(a: Date, b: Date)
    requires IsCalendarDate(a) && IsCalendarDate(b) && Before(a, b)
    ensures Ordinal(a) < Ordinal(b)
  {
    if a.year < b.year {
      DayOfYearBounds(a);
      DayOfYearBounds(b);
      YearsBefore(a.year, b.year);
    } else if a.month < b.month {
      MonthsBefore(a.year, a.month, b.month, a.day);
    }
  }

  /** Distinct calendar dates have distinct ordinals. */
  lemma OrdinalInjective(a: Date, b: Date)
    requires IsCalendarDate(a) && IsCalendarDate(b)
    ensures Ordinal(a) == Ordinal(b) <==> a == b
  {
    if a != b {
      if Before(a, b) {
        OrdinalOrder(a, b);
      } else {
        OrdinalOrder(b, a);
      }
    }
  }

  /**
   * `AddDays(d, n)` is the date Python computes for `d + timedelta(days = n)`: the one calendar
   * date whose ordinal is `n` more than that of `d`.
   */
  lemma AddDaysIsOrdinalDate(d: Date, n: nat, e: Date)
    requires IsCalendarDate(d) && IsCalendarDate(e)
    ensures AddDays(d, n) == e <==> Ordinal(e) == Ordinal(d) + n
  {
    AddDaysOrdinal(d, n);
    OrdinalInjective(AddDays(d, n), e);
  }

  /** Adding days in two steps is adding them at once. */
  lemma {:induction false} AddDaysSplit(d: Date, a: nat, b: nat)
    requires IsCalendarDate(d)
    ensures AddDays(d, a + b) == AddDays(AddDays(d, a), b)
    decreases a
  {
    if a > 0 {
      AddDaysSplit(NextDay(d), a - 1, b);
    }
  }

  /** Inside one month, adding `k` days adds `k` to the day of the month. */
  lemma {:induction false} AddDaysWithinMonth(d: Date, k: nat)
    requires IsCalendarDate(d) && d.day + k <= DaysInMonth(d.year, d.month)
    ensures AddDays(d, k) == Date(d.year, d.month, d.day + k)
    decreases k
  {
    if k > 0 {
      AddDaysWithinMonth(NextDay(d), k - 1);
    }
  }

  /** The first day of the month after the month of `d`. */
  function FirstOfNextMonth(d: Date): (r: Date)
    requires IsCalendarDate(d)
    ensures IsCalendarDate(r) && r.day == 1
    ensures r == NextDay(Date(d.year, d.month, DaysInMonth(d.year, d.month)))
  {
    if d.month < 12 then Date(d.year, d.month + 1, 1) else Date(d.year + 1, 1, 1)
  }

  /** Adding `k <= 28` days that run past the end of the month lands in the next month. */
  lemma AddDaysIntoNextMonth(d: Date, k: nat)
    requires IsCalendarDate(d) && k <= 28
    requires DaysInMonth(d.year, d.month) < d.day + k
    ensures var f := FirstOfNextMonth(d);
      AddDays(d, k) == Date(f.year, f.month, d.day + k - DaysInMonth(d.year, d.month))
  {
    var dim := DaysInMonth(d.year, d.month);
    var a: nat := dim - d.day;
    var f := FirstOfNextMonth(d);
    AddDaysWithinMonth(d, a);
    AddDaysSplit(d, a, 1);
    assert AddDays(d, a + 1) == f;
    AddDaysSplit(d, a + 1, k - a - 1);
    AddDaysWithinMonth(f, k - a - 1);
  }
}

=== FILE: contacts.dfy ===
/**
 * The contacts repository: every operation works on the rows of the `contacts` table that
 * the given user owns. Reads are functions of the table; `ContactTable` holds the table and
 * changes it in place for create, update and remove.
 */
module Contacts {
  import opened Wrappers
  import opened Calendar
  import opened Sequences
  import opened Text
  import opened Models
  import opened Schemas
  import opened Birthdays

  /** The `user_id == user.id` filter. */
  function Owner(user: User): Contact -> bool {
    (c: Contact) => c.userId == Some(user.id)
  }

  /** The rows `user` owns, in storage order. */
  function OwnedContacts(rows: seq<Contact>, user: User): (r: seq<Contact>)
    ensures forall c :: c in r <==> c in rows && c.userId == Some(user.id)
  {
    Where(rows, Owner(user))
  }

  function Min(a: int, b: int): int {
    if a <= b then a else b
  }

  // ---------------------------------------------------------------- listing and paging

  /** `OFFSET skip LIMIT limit` over the owned rows. */
  function GetContacts(rows: seq<Contact>, skip: nat, limit: nat, user: User): (r: seq<Contact>)
    ensures var owned := OwnedContacts(rows, user);
      && |r| == (if |owned| <= skip then 0 else Min(limit, |owned| - skip))
      && forall i :: 0 <= i < |r| ==> r[i] == owned[skip + i]
    ensures forall c :: c in r ==> c in rows && c.userId == Some(user.id)
  {
    var owned := OwnedContacts(rows, user);
    var from := Min(skip, |owned|);
    var to := Min(from + limit, |owned|);
    owned[from..to]
  }

  /** Consecutive pages join into one page: paging neither skips nor repeats a row. */
  lemma PagesConcatenate(rows: seq<Contact>, skip: nat, a: nat, b: nat, user: User)
    ensures GetContacts(rows, skip, a, user) + GetContacts(rows, skip + a, b, user)
         == GetContacts(rows, skip, a + b, user)
  {
  }

  /** A page that starts at 0 and is long enough lists every owned row. */
  lemma FirstPageListsAll(rows: seq<Contact>, limit: nat, user: User)
    requires limit >= |rows|
    ensures GetContacts(rows, 0, limit, user) == OwnedContacts(rows, user)
  {
  }

  // ---------------------------------------------------------------- lookup

  /** Row `c` is the contact with id `id` owned by `user`. */
  predicate IsTarget(c: Contact, id: int, user: User) {
    c.id == id && c.userId == Some(user.id)
  }

  /** The position of the first row matching `id == contact_id AND user_id == user.id`. */
  function FindOwned(rows: seq<Contact>, id: int, user: User): (r: Option<nat>)
    ensures r.Some? ==> r.value < |rows| && IsTarget(rows[r.value], id, user)
    ensures r.Some? ==> forall j :: 0 <= j < r.value ==> !IsTarget(rows[j], id, user)
    ensures r.None? ==> forall j :: 0 <= j < |rows| ==> !IsTarget(rows[j], id, user)
  {
    if rows == [] then None
    else if IsTarget(rows[0], id, user) then Some(0)
    else match FindOwned(rows[1..], id, user)
      case None => None
      case Some(i) => Some(i + 1)
  }

  /** `query(...).filter(id == contact_id, user_id == user.id).first()`. */
  function GetContact(rows: seq<Contact>, id: int, user: User): (r: Option<Contact>)
    ensures r.Some? <==> exists c :: c in rows && IsTarget(c, id, user)
    ensures r.Some? ==> r.value in rows && r.value.id == id && r.value.userId == Some(user.id)
  {
    match FindOwned(rows, id, user)
    case None => None
    case Some(i) => Some(rows[i])
  }

  /** Tenant isolation: another user never sees a contact that `owner` owns. */
  lemma TenantIsolation(rows: seq<Contact>, c: Contact, owner: User, other: User)
    requires UniqueContactIds(rows)
    requires c in rows && c.userId == Some(owner.id) && other.id != owner.id
    ensures GetContact(rows, c.id, other) == None
  {
  }

  /** With unique ids, a row that is the target is the one `GetContact` returns. */
  lemma GetContactFindsTarget(rows: seq<Contact>, k: nat, id: int, user: User)
    requires UniqueContactIds(rows)
    requires k < |rows| && IsTarget(rows[k], id, user)
    ensures GetContact(rows, id, user) == Some(rows[k])
  {
  }

  // ---------------------------------------------------------------- create

  /** The row `create_contact` adds: the body's fields, the given id, owned by `user`. */
  function ContactFromBody(id: int, body: ContactBase, user: User): Contact {
    Contact(id, body.name, body.surname, body.email, body.phone, body.birthDate,
            body.additionalData, Some(user.id))
  }

  /** Create then get round-trips every field of the body, and the response carries the new id. */
  lemma CreateThenGet(rows: seq<Contact>, id: int, body: ContactBase, user: User)
    requires forall c :: c in rows ==> c.id != id
    ensures var c := ContactFromBody(id, body, user);
      GetContact(rows + [c], id, user) == Some(c) && ResponseFrom(c) == ContactResponse(body, id)
  {
    var c := ContactFromBody(id, body, user);
    assert c in rows + [c] && IsTarget(c, id, user);
    var r := GetContact(rows + [c], id, user).value;
    assert r !in rows;
  }

  // ---------------------------------------------------------------- remove

  /** The table after `remove_contact`: the matching row is deleted, if there is one. */
  function Removed(rows: seq<Contact>, id: int, user: User): (r: seq<Contact>)
    ensures GetContact(rows, id, user).None? ==> r == rows
    ensures GetContact(rows, id, user).Some? ==>
      |r| == |rows| - 1 && multiset(r) + multiset{GetContact(rows, id, user).value} == multiset(rows)
  {
    match FindOwned(rows, id, user)
    case None => rows
    case Some(i) =>
      assert rows == rows[..i] + [rows[i]] + rows[i + 1..];
      rows[..i] + rows[i + 1..]
  }

  /** Removing keeps the primary key unique. */
  lemma RemovedKeepsUnique(rows: seq<Contact>, id: int, user: User)
    requires UniqueContactIds(rows)
    ensures UniqueContactIds(Removed(rows, id, user))
    ensures forall c :: c in Removed(rows, id, user) ==> c in rows
  {
  }

  /** A second remove of the same id finds nothing: the deleted row was the only match. */
  lemma RemoveThenGetNone(rows: seq<Contact>, id: int, user: User)
    requires UniqueContactIds(rows)
    ensures GetContact(Removed(rows, id, user), id, user) == None
  {
  }

  /** Removing a contact leaves every other user's rows as they were. */
  lemma RemoveKeepsOtherTenants(rows: seq<Contact>, id: int, user: User, other: User)
    requires other.id != user.id
    ensures OwnedContacts(Removed(rows, id, user), other) == OwnedContacts(rows, other)
  {
    if FindOwned(rows, id, user).Some? {
      WhereRemoveAt(rows, FindOwned(rows, id, user).value, Owner(other));
    }
  }

  // ---------------------------------------------------------------- update

  /** The fields `update_contact` writes: each present patch field overwrites the stored one. */
  function ApplyPatch(c: Contact, p: ContactUpdate): (r: Contact)
    ensures r.id == c.id && r.userId == c.userId
    ensures r.name == (if p.name.Some? then p.name.value else c.name)
    ensures r.surname == (if p.surname.Some? then p.surname.value else c.surname)
    ensures r.email == (if p.email.Some? then p.email.value else c.email)
    ensures r.phone == (if p.phone.Some? then p.phone.value else c.phone)
    ensures r.birthDate == (if p.birthDate.Some? then p.birthDate.value else c.birthDate)
    ensures r.additionalData == (if p.additionalData.Some? then p.additionalData else c.additionalData)
  {
    c.(name := p.name.GetOr(c.name),
       surname := p.surname.GetOr(c.surname),
       email := p.email.GetOr(c.email),
       phone := p.phone.GetOr(c.phone),
       birthDate := p.birthDate.GetOr(c.birthDate),
       additionalData := if p.additionalData.Some? then p.additionalData else c.additionalData)
  }

  /** The patch that applies `p` and then `q`: a field of `q` wins where both are present. */
  function Then(p: ContactUpdate, q: ContactUpdate): ContactUpdate {
    ContactUpdate(
      if q.name.Some? then q.name else p.name,
      if q.surname.Some? then q.surname else p.surname,
      if q.email.Some? then q.email else p.email,
      if q.phone.Some? then q.phone else p.phone,
      if q.birthDate.Some? then q.birthDate else p.birthDate,
      if q.additionalData.Some? then q.additionalData else p.additionalData)
  }

  /** A patch with no fields changes nothing; a patch is idempotent; two patches compose. */
  lemma PatchLaws(c: Contact, p: ContactUpdate, q: ContactUpdate)
    ensures ApplyPatch(c, EmptyUpdate()) == c
    ensures ApplyPatch(ApplyPatch(c, p), p) == ApplyPatch(c, p)
    ensures ApplyPatch(ApplyPatch(c, p), q) == ApplyPatch(c, Then(p, q))
  {
  }

  /** A patch that sets only the name changes only the name, even to the empty string. */
  lemma NameOnlyPatch(c: Contact, name: string)
    ensures ApplyPatch(c, ContactUpdate(name := Some(name))) == c.(name := name)
  {
  }

  /** A valid patch keeps a row within its columns, provided a new email fits the column. */
  lemma PatchKeepsColumns(c: Contact, p: ContactUpdate)
    requires c.FitsColumns() && p.Valid()
    ensures ApplyPatch(c, p).FitsColumns() <==> (p.email.Some? ==> |p.email.value| <= 80)
  {
  }

  /** The table after `update_contact`: the matching row, if any, has the patch applied. */
  function Updated(rows: seq<Contact>, id: int, p: ContactUpdate, user: User): (r: seq<Contact>)
    ensures |r| == |rows|
    ensures GetContact(rows, id, user).None? ==> r == rows
    ensures FindOwned(rows, id, user).Some? ==>
      var i := FindOwned(rows, id, user).value;
      r[i] == ApplyPatch(rows[i], p) && forall j :: 0 <= j < |rows| && j != i ==> r[j] == rows[j]
  {
    match FindOwned(rows, id, user)
    case None => rows
    case Some(i) => rows[i := ApplyPatch(rows[i], p)]
  }

  /** Updating keeps the primary key unique. */
  lemma UpdatedKeepsUnique(rows: seq<Contact>, id: int, p: ContactUpdate, user: User)
    requires UniqueContactIds(rows)
    ensures UniqueContactIds(Updated(rows, id, p, user))
  {
    var r := Updated(rows, id, p, user);
    assert forall a :: 0 <= a < |r| ==> ContactId(r[a]) == ContactId(rows[a]);
  }

  /** After an update, get returns the patched contact, or nothing if there was no match. */
  lemma UpdateThenGet(rows: seq<Contact>, id: int, p: ContactUpdate, user: User)
    requires UniqueContactIds(rows)
    ensures GetContact(Updated(rows, id, p, user), id, user) ==
      match GetContact(rows, id, user)
      case None => None
      case Some(c) => Some(ApplyPatch(c, p))
  {
    if FindOwned(rows, id, user).Some? {
      var i := FindOwned(rows, id, user).value;
      UpdatedKeepsUnique(rows, id, p, user);
      GetContactFindsTarget(Updated(rows, id, p, user), i, id, user);
    }
  }

  /** Updating a contact leaves every other user's rows as they were. */
  lemma UpdateKeepsOtherTenants(rows: seq<Contact>, id: int, p: ContactUpdate, user: User, other: User)
    requires other.id != user.id
    ensures OwnedContacts(Updated(rows, id, p, user), other) == OwnedContacts(rows, other)
  {
    if FindOwned(rows, id, user).Some? {
      var i := FindOwned(rows, id, user).value;
      WhereUpdateAt(rows, i, ApplyPatch(rows[i], p), Owner(other));
    }
  }

  // ---------------------------------------------------------------- search

  /** Python truthiness of an optional string: neither None nor empty. */
  predicate Truthy(f: Option<string>) {
    f.Some? && f.value != ""
  }

  /** A filter is applied only if it is truthy; then it is `field ILIKE '%filter%'`. */
  predicate Admits(f: Option<string>, field: string) {
    !Truthy(f) || ContainsIgnoreCase(field, f.value)
  }

  /** What a search filter demands of a field: if truthy, it occurs in the field, ignoring case. */
  ghost predicate Satisfies(f: Option<string>, field: string) {
    Truthy(f) ==> exists i :: OccursAt(field, f.value, i)
  }

  lemma AdmitsIff(f: Option<string>)
    ensures forall field :: Admits(f, field) <==> Satisfies(f, field)
  {
    forall field
      ensures Admits(f, field) <==> Satisfies(f, field)
    {
      if Truthy(f) {
        ContainsIgnoreCaseIff(field, f.value);
      }
    }
  }

  function SearchFilter(name: Option<string>, surname: Option<string>, email: Option<string>, user: User): Contact -> bool {
    (c: Contact) => c.userId == Some(user.id) && Admits(name, c.name) && Admits(surname, c.surname) && Admits(email, c.email)
  }

  /** The owned rows that contain every truthy filter in the matching field, ignoring case. */
  function SearchContacts(name: Option<string>, surname: Option<string>, email: Option<string>,
                          rows: seq<Contact>, user: User): (r: seq<Contact>)
    ensures forall c :: c in r <==>
      && c in rows && c.userId == Some(user.id)
      && Satisfies(name, c.name) && Satisfies(surname, c.surname) && Satisfies(email, c.email)
  {
    AdmitsIff(name);
    AdmitsIff(surname);
    AdmitsIff(email);
    Where(rows, SearchFilter(name, surname, email, user))
  }

  /** A search whose filters are all None or empty lists every owned row, in storage order. */
  lemma SearchWithoutFiltersListsAll(name: Option<string>, surname: Option<string>, email: Option<string>,
                                     rows: seq<Contact>, user: User)
    requires !Truthy(name) && !Truthy(surname) && !Truthy(email)
    ensures SearchContacts(name, surname, email, rows, user) == OwnedContacts(rows, user)
  {
    WhereSame(rows, SearchFilter(name, surname, email, user), Owner(user));
  }

  // ---------------------------------------------------------------- upcoming birthdays

  function BirthdayFilter(today: Date, nextWeek: Date, user: User): Contact -> bool {
    (c: Contact) => QueryMatches(today, nextWeek, c.birthDate) && c.userId == Some(user.id)
  }

  /**
   * `get_upcoming_birthdays` with today's date as a parameter. None stands for the
   * OverflowError of `today + timedelta(days=7)` past year 9999.
   */
  function GetUpcomingBirthdays(rows: seq<Contact>, user: User, today: Date): (r: Option<seq<Contact>>)
    requires ValidDate(today)
    ensures r.None? <==> AddDays(today, 7).year > MaxYear
    ensures r.Some? ==> forall c :: c in r.value <==>
      c in rows && c.userId == Some(user.id) && QueryMatches(today, AddDays(today, 7), c.birthDate)
  {
    var nextWeek := AddDays(today, 7);
    if nextWeek.year > MaxYear then None
    else Some(Where(rows, BirthdayFilter(today, nextWeek, user)))
  }

  function WindowFilter(today: Date, user: User): Contact -> bool
    requires IsCalendarDate(today)
  {
    (c: Contact) => c.userId == Some(user.id) && InWindow(today, c.birthDate)
  }

  /**
   * The evidently intended query: the owned contacts whose birth month and day fall on one of
   * the eight days today .. today + 7.
   */
  function UpcomingBirthdaysInWindow(rows: seq<Contact>, user: User, today: Date): (r: seq<Contact>)
    requires IsCalendarDate(today)
    ensures forall c :: c in r <==> c in rows && c.userId == Some(user.id) && InWindow(today, c.birthDate)
  {
    Where(rows, WindowFilter(today, user))
  }

  /** Within one month the query returns exactly the intended window. */
  lemma UpcomingWithinMonth(rows: seq<Contact>, user: User, today: Date)
    requires ValidDate(today) && today.day + 7 <= DaysInMonth(today.year, today.month)
    ensures GetUpcomingBirthdays(rows, user, today) == Some(UpcomingBirthdaysInWindow(rows, user, today))
  {
    AddDaysWithinMonth(today, 7);
    forall c: Contact {
      WithinMonthIsExact(today, c.birthDate);
    }
    WhereSame(rows, BirthdayFilter(today, AddDays(today, 7), user), WindowFilter(today, user));
  }

  /** Across year-end the query returns exactly the intended window, for rows with real birth dates. */
  lemma UpcomingAcrossYearEnd(rows: seq<Contact>, user: User, today: Date)
    requires ValidDate(today) && today.year < MaxYear && today.month == 12 && 31 < today.day + 7
    requires forall c :: c in rows ==> IsCalendarDate(c.birthDate)
    ensures GetUpcomingBirthdays(rows, user, today) == Some(UpcomingBirthdaysInWindow(rows, user, today))
  {
    AddDaysIntoNextMonth(today, 7);
    forall c | c in rows {
      YearEndIsExact(today, c.birthDate);
    }
    WhereSame(rows, BirthdayFilter(today, AddDays(today, 7), user), WindowFilter(today, user));
  }

  /** Across a month boundary inside the year the query returns no contacts at all. */
  lemma UpcomingAcrossMonthIsEmpty(rows: seq<Contact>, user: User, today: Date)
    requires ValidDate(today) && today.month < 12
    requires DaysInMonth(today.year, today.month) < today.day + 7
    ensures GetUpcomingBirthdays(rows, user, today) == Some([])
  {
    AddDaysIntoNextMonth(today, 7);
    forall c: Contact {
      MonthCrossingMatchesNothing(today, c.birthDate);
    }
    WhereNone(rows, BirthdayFilter(today, AddDays(today, 7), user));
  }

  // ---------------------------------------------------------------- the mutable table

  /** The `contacts` table of one database session, changed in place by the write operations. */
  class ContactTable {
    var rows: seq<Contact>
    /** The next value of the primary-key sequence. */
    var nextId: int

    ghost predicate Valid()
      reads this
    {
      UniqueContactIds(rows) && forall c :: c in rows ==> c.id < nextId
    }

    constructor ()
      ensures Valid() && rows == [] && nextId == 1
    {
      rows := [];
      nextId := 1;
    }

    /** `create_contact`: adds one owned row with a fresh id; existing rows are unchanged. */
    method CreateContact(body: ContactBase, user: User) returns (c: Contact)
      requires Valid()
      modifies this
      ensures Valid()
      ensures c == ContactFromBody(old(nextId), body, user)
      ensures rows == old(rows) + [c] && nextId == old(nextId) + 1
    {
      c := ContactFromBody(nextId, body, user);
      assert forall d :: d in rows ==> d.id != c.id;
      forall i, j | 0 <= i < j < |rows + [c]|
        ensures ContactId((rows + [c])[i]) != ContactId((rows + [c])[j])
      {
        if j == |rows| {
          assert (rows + [c])[i] in rows;
        }
      }
      rows := rows + [c];
      nextId := nextId + 1;
    }

    /** `remove_contact`: deletes and returns the owned match, or returns None and changes nothing. */
    method RemoveContact(id: int, user: User) returns (r: Option<Contact>)
      requires Valid()
      modifies this
      ensures Valid()
      ensures r == GetContact(old(rows), id, user)
      ensures rows == Removed(old(rows), id, user) && nextId == old(nextId)
    {
      r := GetContact(rows, id, user);
      RemovedKeepsUnique(rows, id, user);
      if r.Some? {
        var i := FindOwned(rows, id, user).value;
        rows := rows[..i] + rows[i + 1..];
      }
    }

    /**
     * `update_contact`: copies the fields of the patch that are present onto the owned match,
     * one by one, and returns it; returns None and changes nothing when there is no match.
     */
    method UpdateContact(id: int, body: ContactUpdate, user: User) returns (r: Option<Contact>)
      requires Valid()
      modifies this
      ensures Valid()
      ensures r == match GetContact(old(rows), id, user)
                   case None => None
                   case Some(c) => Some(ApplyPatch(c, body))
      ensures rows == Updated(old(rows), id, body, user) && nextId == old(nextId)
    {
      var found := FindOwned(rows, id, user);
      if found.None? {
        return None;
      }
      var i := found.value;
      var contact := rows[i];
      if body.name.Some? {
        contact := contact.(name := body.name.value);
      }
      if body.surname.Some? {
        contact := contact.(surname := body.surname.value);
      }
      if body.email.Some? {
        contact := contact.(email := body.email.value);
      }
      if body.phone.Some? {
        contact := contact.(phone := body.phone.value);
      }
      if body.birthDate.Some? {
        contact := contact.(birthDate := body.birthDate.value);
      }
      if body.additionalData.Some? {
        contact := contact.(additionalData := body.additionalData);
      }
      UpdatedKeepsUnique(rows, id, body, user);
      rows := rows[i := contact];
      r := Some(contact);
    }
  }
}

=== FILE: models.dfy ===
/**
 * The two database tables: `contacts` and `users`, with the column constraints the ORM
 * declares (nullability, varchar lengths, primary keys, the unique email, the defaults and the
 * cascading foreign key from a contact to its owner).
 */
module Models {
  import opened Wrappers
  import opened Calendar
  import opened Sequences

  /**
   * A row of `contacts`. Non-null columns are plain values; `additional_data` and
   * `user_id` are nullable.
   */
  datatype Contact = Contact(
    id: int,
    name: string,
    surname: string,
    email: string,
    phone: string,
    birthDate: Date,
    additionalData: Option<string>,
    userId: Option<int>)
  {
    /** The varchar bounds of the `contacts` columns, and a representable birth date. */
    predicate FitsColumns() {
      && |name| <= 30
      && |surname| <= 30
      && |email| <= 80
      && |phone| <= 20
      && ValidDate(birthDate)
      && (additionalData.Some? ==> |additionalData.value| <= 150)
    }
  }

  /**
   * A row of `users`; the defaults are those the ORM fills in for a new row. Every column
   * declared without `nullable=False` may hold NULL, `created_at` and `confirmed` included.
   */
  datatype User = User(
    id: int,
    username: Option<string>,
    email: string,
    password: string,
    createdAt: Option<int>,
    avatar: Option<string> := None,
    refreshToken: Option<string> := None,
    confirmed: Option<bool> := Some(false))
  {
    /** The varchar bounds of the `users` columns. */
    predicate FitsColumns() {
      && (username.Some? ==> |username.value| <= 50)
      && |email| <= 250
      && |password| <= 255
      && (avatar.Some? ==> |avatar.value| <= 255)
      && (refreshToken.Some? ==> |refreshToken.value| <= 255)
    }
  }

  /**
   * A user row as inserted: `created_at` is the insertion time, and the columns left unset
   * take their defaults.
   */
  function NewUser(id: int, username: Option<string>, email: string, password: string, now: int): (u: User)
    ensures u.id == id && u.username == username && u.email == email && u.password == password
    ensures u.createdAt == Some(now)
    ensures u.confirmed == Some(false) && u.avatar == None && u.refreshToken == None
  {
    User(id, username, email, password, Some(now))
  }

  function ContactId(c: Contact): int { c.id }
  function UserId(u: User): int { u.id }
  function UserEmail(u: User): string { u.email }

  /** `contacts.id` is a primary key. */
  ghost predicate UniqueContactIds(rows: seq<Contact>) {
    UniqueBy(rows, ContactId)
  }

  /** `users.id` is a primary key. */
  ghost predicate UniqueUserIds(users: seq<User>) {
    UniqueBy(users, UserId)
  }

  /** `users.email` is unique. */
  ghost predicate UniqueEmails(users: seq<User>) {
    UniqueBy(users, UserEmail)
  }

  /** Every non-null `contacts.user_id` names an existing user. */
  ghost predicate ReferencesValid(users: seq<User>, rows: seq<Contact>) {
    forall c :: c in rows && c.userId.Some? ==> exists u :: u in users && u.id == c.userId.value
  }

  /** All the table constraints together. */
  ghost predicate Consistent(users: seq<User>, rows: seq<Contact>) {
    && UniqueUserIds(users)
    && UniqueEmails(users)
    && UniqueContactIds(rows)
    && ReferencesValid(users, rows)
  }

  /** Deleting user `id`: `ON DELETE CASCADE` removes that user's contacts with it. */
  function DeleteUser(users: seq<User>, rows: seq<Contact>, id: int): (r: (seq<User>, seq<Contact>))
    ensures forall u :: u in r.0 <==> u in users && u.id != id
    ensures forall c :: c in r.1 <==> c in rows && c.userId != Some(id)
  {
    (Where(users, OtherUser(id)), Where(rows, NotOwnedBy(id)))
  }

  /** The filter that keeps every user but `id`. */
  function OtherUser(id: int): User -> bool {
    (u: User) => u.id != id
  }

  /** The filter that keeps every contact not owned by user `id`. */
  function NotOwnedBy(id: int): Contact -> bool {
    (c: Contact) => c.userId != Some(id)
  }

  /** Deleting a user with its contacts keeps every table constraint. */
  lemma DeleteUserKeepsConsistency(users: seq<User>, rows: seq<Contact>, id: int)
    requires Consistent(users, rows)
    ensures var (users', rows') := DeleteUser(users, rows, id);
      Consistent(users', rows') && forall c :: c in rows' ==> c.userId != Some(id)
  {
    var (users', rows') := DeleteUser(users, rows, id);
    WhereKeepsUnique(users, OtherUser(id), UserId);
    WhereKeepsUnique(users, OtherUser(id), UserEmail);
    WhereKeepsUnique(rows, NotOwnedBy(id), ContactId);
    forall c | c in rows' && c.userId.Some?
      ensures exists u :: u in users' && u.id == c.userId.value
    {
      var u :| u in users && u.id == c.userId.value;
      assert u in users';
    }
  }
}

=== FILE: schemas.dfy ===
/**
 * The request and response records of the API. A field with a pydantic default is a
 * constructor parameter with a default value; `Valid` states the `Field` length bounds that
 * pydantic checks before a record reaches the repository.
 */
module Schemas {
  import opened Wrappers
  import opened Calendar
  import Models

  /** The body of a contact creation request. */
  datatype ContactBase = ContactBase(
    name: string,
    surname: string,
    email: string,
    phone: string,
    birthDate: Date,
    additionalData: Option<string> := None)
  {
    predicate Valid() {
      && |name| <= 30
      && |surname| <= 30
      && |phone| <= 20
      && ValidDate(birthDate)
      && (additionalData.Some? ==> |additionalData.value| <= 150)
    }
  }

  /** A partial update: every field may be absent, and a bound applies only to a present field. */
  datatype ContactUpdate = ContactUpdate(
    name: Option<string> := None,
    surname: Option<string> := None,
    email: Option<string> := None,
    phone: Option<string> := None,
    birthDate: Option<Date> := None,
    additionalData: Option<string> := None)
  {
    predicate Valid() {
      && (name.Some? ==> |name.value| <= 30)
      && (surname.Some? ==> |surname.value| <= 30)
      && (phone.Some? ==> |phone.value| <= 20)
      && (birthDate.Some? ==> ValidDate(birthDate.value))
      && (additionalData.Some? ==> |additionalData.value| <= 150)
    }
  }

  /** The patch a request with no fields produces. */
  function EmptyUpdate(): (p: ContactUpdate)
    ensures p.Valid()
    ensures p.name == p.surname == p.email == p.phone == p.additionalData == None
    ensures p.birthDate == None
  {
    ContactUpdate()
  }

  /** A contact as returned by the API: the fields of `ContactBase` and the row id. */
  datatype ContactResponse = ContactResponse(base: ContactBase, id: int)

  /** Reads a response from a contact row, attribute by attribute. */
  function ResponseFrom(c: Models.Contact): (r: ContactResponse)
    ensures r.id == c.id
    ensures r.base.name == c.name && r.base.surname == c.surname && r.base.email == c.email
    ensures r.base.phone == c.phone && r.base.birthDate == c.birthDate
    ensures r.base.additionalData == c.additionalData
    ensures c.FitsColumns() ==> r.base.Valid()
  {
    ContactResponse(ContactBase(c.name, c.surname, c.email, c.phone, c.birthDate, c.additionalData), c.id)
  }

  /** The signup request body. */
  datatype UserModel = UserModel(username: string, email: string, password: string) {
    predicate Valid() {
      4 <= |username| <= 16 && 6 <= |password| <= 10
    }
  }

  /** Pydantic validation of a signup body: the record, or None when a length bound fails. */
  function ParseUserModel(username: string, email: string, password: string): (r: Option<UserModel>)
    ensures r.Some? <==> 4 <= |username| <= 16 && 6 <= |password| <= 10
    ensures r.Some? ==> r.value.Valid() && r.value == UserModel(username, email, password)
  {
    var m := UserModel(username, email, password);
    if m.Valid() then Some(m) else None
  }

  /** A user as returned by the API; `avatar` is required here though the column is nullable. */
  datatype UserDb = UserDb(id: int, username: string, email: string, createdAt: int, avatar: string)

  /**
   * Reads a `UserDb` from a user row; validation fails (None) when the row's `username`,
   * `created_at` or `avatar` is NULL, since all three fields are required.
   */
  function UserDbFrom(u: Models.User): (r: Option<UserDb>)
    ensures r.Some? <==> u.username.Some? && u.createdAt.Some? && u.avatar.Some?
    ensures r.Some? ==> r.value == UserDb(u.id, u.username.value, u.email, u.createdAt.value, u.avatar.value)
  {
    if u.username.Some? && u.createdAt.Some? && u.avatar.Some? then
      Some(UserDb(u.id, u.username.value, u.email, u.createdAt.value, u.avatar.value))
    else
      None
  }

  datatype UserResponse = UserResponse(user: UserDb, detail: string := "User successfully created")

  /** The signup response as built without an explicit detail. */
  function SignupResponse(user: UserDb): (r: UserResponse)
    ensures r.user == user && r.detail == "User successfully created"
  {
    UserResponse(user)
  }

  datatype TokenModel = TokenModel(accessToken: string, refreshToken: string, tokenType: string := "bearer")

  /** The login response as built without an explicit token type. */
  function LoginResponse(accessToken: string, refreshToken: string): (r: TokenModel)
    ensures r.accessToken == accessToken && r.refreshToken == refreshToken
    ensures r.tokenType == "bearer"
  {
    TokenModel(accessToken, refreshToken)
  }

  /**
   * A valid creation body fits every column of the contact row except `email`: the schema
   * puts no 80-character bound on it.
   */
  lemma ValidBaseFitsColumns(b: ContactBase, id: int, owner: Option<int>)
    requires b.Valid()
    ensures var c := Models.Contact(id, b.name, b.surname, b.email, b.phone, b.birthDate, b.additionalData, owner);
      c.FitsColumns() <==> |b.email| <= 80
  {
  }
}

=== FILE: sequences.dfy ===
/** Order-preserving filtering of a table: the model of a SQL `WHERE` over rows in storage order. */
module Sequences {

  /** The elements of `s` that satisfy `p`, in their original order. */
  function Where<T(!new)>(s: seq<T>, p: T -> bool): (r: seq<T>)
    ensures |r| <= |s|
    ensures forall x :: x in r <==> x in s && p(x)
  {
    if s == [] then []
    else (if p(s[0]) then [s[0]] else []) + Where(s[1..], p)
  }

  /** Filtering distributes over concatenation: the result keeps the storage order. */
  lemma {:induction false} WhereConcat<T(!new)>(a: seq<T>, b: seq<T>, p: T -> bool)
    ensures Where(a + b, p) == Where(a, p) + Where(b, p)
  {
    if a == [] {
      assert a + b == b;
    } else {
      assert (a + b)[0] == a[0];
      assert (a + b)[1..] == a[1..] + b;
      WhereConcat(a[1..], b, p);
    }
  }

  /** Two filters that agree on every element select the same rows. */
  lemma {:induction false} WhereSame<T(!new)>(s: seq<T>, p: T -> bool, q: T -> bool)
    requires forall x :: x in s ==> p(x) == q(x)
    ensures Where(s, p) == Where(s, q)
  {
    if s != [] {
      assert forall x :: x in s[1..] ==> x in s;
      WhereSame(s[1..], p, q);
    }
  }

  /** A filter no element satisfies returns nothing. */
  lemma {:induction false} WhereNone<T(!new)>(s: seq<T>, p: T -> bool)
    requires forall x :: x in s ==> !p(x)
    ensures Where(s, p) == []
  {
    if s != [] {
      assert forall x :: x in s[1..] ==> x in s;
      WhereNone(s[1..], p);
    }
  }

  /** A single rejected element contributes nothing to the filtered view. */
  lemma WhereRejected<T(!new)>(a: seq<T>, x: T, b: seq<T>, p: T -> bool)
    requires !p(x)
    ensures Where(a + [x] + b, p) == Where(a + b, p)
  {
    WhereConcat(a + [x], b, p);
    WhereConcat(a, [x], p);
    WhereConcat(a, b, p);
    assert Where([x], p) == [];
  }

  /** Deleting an element the filter rejects does not change the filtered view. */
  lemma WhereRemoveAt<T(!new)>(s: seq<T>, i: nat, p: T -> bool)
    requires i < |s| && !p(s[i])
    ensures Where(s[..i] + s[i + 1..], p) == Where(s, p)
  {
    assert s == s[..i] + [s[i]] + s[i + 1..];
    WhereRejected(s[..i], s[i], s[i + 1..], p);
  }

  /** Replacing an element the filter rejects by another it rejects does not change the filtered view. */
  lemma WhereUpdateAt<T(!new)>(s: seq<T>, i: nat, x: T, p: T -> bool)
    requires i < |s| && !p(s[i]) && !p(x)
    ensures Where(s[i := x], p) == Where(s, p)
  {
    assert s[i := x] == s[..i] + [x] + s[i + 1..];
    assert s == s[..i] + [s[i]] + s[i + 1..];
    WhereRejected(s[..i], x, s[i + 1..], p);
    WhereRejected(s[..i], s[i], s[i + 1..], p);
  }

  /** No two positions of `s` carry the same key. */
  ghost predicate UniqueBy<T, K>(s: seq<T>, key: T -> K) {
    forall i, j :: 0 <= i < j < |s| ==> key(s[i]) != key(s[j])
  }

  lemma UniqueByCons<T, K>(x: T, t: seq<T>, key: T -> K)
    ensures UniqueBy([x] + t, key) <==> (forall y :: y in t ==> key(y) != key(x)) && UniqueBy(t, key)
  {
    var s := [x] + t;
    if UniqueBy(s, key) {
      forall i, j | 0 <= i < j < |t|
        ensures key(t[i]) != key(t[j])
      {
        assert s[i + 1] == t[i] && s[j + 1] == t[j];
      }
      forall y | y in t
        ensures key(y) != key(x)
      {
        var k :| 0 <= k < |t| && t[k] == y;
        assert s[0] == x && s[k + 1] == y;
      }
    }
  }

  /** Filtering keeps a key unique. */
  lemma {:induction false} WhereKeepsUnique<T(!new), K>(s: seq<T>, p: T -> bool, key: T -> K)
    requires UniqueBy(s, key)
    ensures UniqueBy(Where(s, p), key)
  {
    if s != [] {
      assert s == [s[0]] + s[1..];
      UniqueByCons(s[0], s[1..], key);
      WhereKeepsUnique(s[1..], p, key);
      var w := Where(s[1..], p);
      if p(s[0]) {
        UniqueByCons(s[0], w, key);
      }
    }
  }
}

=== FILE: text.dfy ===
/**
 * Case-insensitive substring matching: the meaning of SQL `column ILIKE '%' || filter || '%'`
 * for filters without LIKE metacharacters, under ASCII case folding.
 */
module Text {

  function Lower(c: char): char {
    if 'A' <= c <= 'Z' then (c as int - 'A' as int + 'a' as int) as char else c
  }

  function LowerString(s: string): (r: string)
    ensures |r| == |s|
    ensures forall i :: 0 <= i < |s| ==> r[i] == Lower(s[i])
  {
    seq(|s|, i requires 0 <= i < |s| => Lower(s[i]))
  }

  /** `s` and `t` are equal up to letter case. */
  predicate EqualIgnoreCase(s: string, t: string) {
    LowerString(s) == LowerString(t)
  }

  /** `t` occurs in `s` starting at position `i`, ignoring letter case. */
  predicate OccursAt(s: string, t: string, i: int) {
    0 <= i && i + |t| <= |s| && EqualIgnoreCase(s[i..i + |t|], t)
  }

  /** Scans `s` from the left for an occurrence of `t`, ignoring letter case. */
  predicate ContainsIgnoreCase(s: string, t: string)
    decreases |s|
  {
    (|t| <= |s| && EqualIgnoreCase(s[..|t|], t))
    || (|s| > 0 && ContainsIgnoreCase(s[1..], t))
  }

  /** The scan finds `t` exactly when some position of `s` holds it. */
  lemma {:induction false} ContainsIgnoreCaseIff(s: string, t: string)
    ensures ContainsIgnoreCase(s, t) <==> exists i :: OccursAt(s, t, i)
    decreases |s|
  {
    if |t| <= |s| && EqualIgnoreCase(s[..|t|], t) {
      assert s[0..0 + |t|] == s[..|t|];
      assert OccursAt(s, t, 0);
    } else if |s| == 0 {
      assert forall i :: !OccursAt(s, t, i);
    } else {
      ContainsIgnoreCaseIff(s[1..], t);
      if ContainsIgnoreCase(s[1..], t) {
        var i :| OccursAt(s[1..], t, i);
        assert s[1..][i..i + |t|] == s[i + 1..i + 1 + |t|];
        assert OccursAt(s, t, i + 1);
      } else {
        forall i
          ensures !OccursAt(s, t, i)
        {
          if i == 0 && |t| <= |s| {
            assert s[0..|t|] == s[..|t|];
          } else if 0 < i && i + |t| <= |s| {
            assert s[1..][i - 1..i - 1 + |t|] == s[i..i + |t|];
            assert !OccursAt(s[1..], t, i - 1);
          }
        }
      }
    }
  }

  /** Matching ignores the case of both the column value and the filter. */
  lemma {:induction false} ContainsIgnoresCase(s: string, t: string)
    ensures ContainsIgnoreCase(s, t) <==> ContainsIgnoreCase(LowerString(s), LowerString(t))
  {
    ContainsIgnoreCaseIff(s, t);
    ContainsIgnoreCaseIff(LowerString(s), LowerString(t));
    var ls, lt := LowerString(s), LowerString(t);
    forall i | 0 <= i && i + |t| <= |s|
      ensures OccursAt(s, t, i) <==> OccursAt(ls, lt, i)
    {
      assert LowerString(ls[i..i + |t|]) == LowerString(s[i..i + |t|]);
      assert LowerString(lt) == LowerString(t);
    }
    if exists i :: OccursAt(ls, lt, i) {
      var i :| OccursAt(ls, lt, i);
      assert OccursAt(s, t, i);
    }
  }
}

=== FILE: wrappers.dfy ===
/** Optional values: Python's `Optional[...]` / `None`, SQL `NULL`, JavaScript `null`. */
module Wrappers {

  datatype Option<+T> = None | Some(value: T) {

    /** The value if present, otherwise `default`. */
    function GetOr(default: T): T {
      match this
      case Some(v) => v
      case None => default
    }
  }
}
